=== FILE: README.md ===
# Satellite orbit animation: the data pipeline

`genai.py` is a Streamlit script. It animates ten satellites over the last
thirty days. Under the plotting calls sits a small deterministic pipeline,
and this project models it and proves its properties:

1. **Catalogue loading.** Each raw two-line-element block is split with
   `str.splitlines()`. The first three lines are `strip()`ped into name,
   line 1 and line 2. Records are stored in an insertion-ordered dict keyed
   by name.
2. **Time grid.** Starting at `now - 30 days`, the `while cur <= end` loop
   appends the current instant and adds 3 hours each time.
3. **Trajectories.** Every satellite, in dict order, is propagated at every
   grid instant. The list of positions is transposed into `xs, ys, zs` by
   `zip(*pos)`.
4. **Scene.** Satellite `i` gets colour `colors[i % 10]`, one initial
   marker at its first position and one translucent path overlay. For each
   grid index `k` there is one animation frame named `str(k)`, holding
   every satellite's point at index `k`.

Modules, one file each:

- `Results`: a `Result` type and `Collect`, which finds the first failure of a sequence of results.
- `PyStr`: the Python string operations the script uses. These are `strip()`, `splitlines()` and `str(n)`.
- `Dicts`: an insertion-ordered dictionary with Python's assignment semantics.
- `Tle`: the block parser and the catalogue.
- `TimeGrid`: the loop and its closed form.
- `Trajectory`: the unpacking and the per-satellite tracks.
- `Scene`: the traces, the colours and the frames.
- `Pipeline`: everything chained together, as one run of the script.

Modelling choices:

- **Times.** Instants and durations are integers counting microseconds, the resolution of `datetime` and `timedelta`. Their arithmetic is exact at that resolution, so nothing is truncated. The current time `now` is a parameter.
- **Window and step.** Both are parameters, and `Run` fixes them to 30 days and 3 hours.
- **Step must be positive.** `step > 0` is a precondition. The script's step is the constant 3 hours (genai.py:64). A zero step would loop forever, and a negative step would walk `cur` back until `datetime` overflows; neither is modelled.
- **Negative window.** A negative window is allowed. It gives an empty grid, and the script then fails to unpack `zip(*[])` into three names. The model reproduces that error.
- **Propagation.** The propagator (Skyfield's `sat.at(t).position.km`) is a total function parameter `(Record, Instant) -> Vec3<C>`. The coordinate type `C` is opaque.
- **Parse, then insert.** The model parses every block first and then folds the records into the dict, whereas the script interleaves the two. The outcome is the same: inserting cannot fail, and the first bad block aborts the script.
- **Duplicate names.** As in the source, a later block with the same name replaces the earlier record but keeps the position of the name's first occurrence. There is no duplicate-name error.
- **Block errors.** A block is rejected only when `splitlines()` gives fewer than three lines (the `IndexError` at `lines[len(lines)]`, the first missing line). Blank or whitespace-only lines are accepted and stripped to empty strings. Lines beyond the third are ignored. Element lines are not validated.

## Model

| member | source | states |
|---|---|---|
| PyStr.TrimStart | genai.py:59 | `lstrip()`: the result is a suffix of the input, everything cut off is whitespace, and it does not start with whitespace |
| PyStr.TrimEnd | genai.py:59 | `rstrip()`: the result is a prefix of the input, everything cut off is whitespace, and it does not end with whitespace |
| PyStr.Strip | genai.py:59 | the result is an infix of the input with only whitespace removed around it, and it neither starts nor ends with whitespace |
| PyStr.StripIdempotent | genai.py:59 | stripping an already stripped string changes nothing |
| PyStr.StripUnpadded | genai.py:59 | a string with no whitespace at either end is its own strip |
| PyStr.SplitLines | genai.py:58 | no produced line contains a line break, and only the empty string yields no lines |
| PyStr.SplitJoined | genai.py:58 | lines joined by newlines (last line non-empty) split back into exactly those lines |
| PyStr.SplitTerminated | genai.py:58 | lines each ended by a newline split back into exactly those lines; the final break opens no empty line |
| PyStr.Decimal | genai.py:113 | `str(k)` is a non-empty digit string, and only the one-character string "0" starts with a zero |
| PyStr.DecimalRoundTrip | genai.py:113 | reading back `str(k)` as a number gives `k` |
| PyStr.DecimalInjective | genai.py:113 | different frame indices get different frame names |
| Dicts.Empty | genai.py:56 | `satellites = {}`: a well-formed dict with no keys and no entries |
| Dicts.Put | genai.py:60 | `d[k] = v`: `k` now maps to `v`, other keys keep their values, an existing key keeps its position, a new key is appended |
| Dicts.PutNewKey | genai.py:60 | inserting a fresh key appends it and leaves every listed value alone |
| Tle.ParseBlock | genai.py:58-59 | a parsed record has stripped, break-free name and element lines; a failure names a missing line below 3 |
| Tle.ParseJoined | genai.py:58-59 | a block of three or more lines parses to the stripped first, second and third lines, whatever follows |
| Tle.ParseShortBlock | genai.py:58-59 | a block of fewer than three lines fails, naming the first missing line index |
| Tle.StripKeepsNoLineBreak | genai.py:59 | stripping a line leaves it free of line breaks |
| Tle.ParseAll | genai.py:57-59 | all blocks parse in order, or the result names the first block that fails and its error, all earlier blocks having parsed |
| Tle.FromRecords | genai.py:56-60 | the dict is well formed and holds exactly the names that occur in the records |
| Tle.Load | genai.py:56-60 | loading succeeds exactly when every block parses; the dict never has more keys than blocks |
| Tle.CatalogueSize | genai.py:56-60 | there are no more catalogue keys than records |
| Tle.CatalogueFirstOccurrenceOrder | genai.py:56-60 | keys are the names ordered by where each first occurs in the input |
| Tle.CatalogueLastWins | genai.py:60 | each name holds the record of its last occurrence |
| Tle.DistinctNamesKeepOrder | genai.py:56-60 | with distinct names the keys are the names in input order and each maps to its own record |
| Tle.LoadContents | genai.py:56-60 | a successful load has exactly one key per distinct parsed name and holds the blocks' records, keyed in order of each name's first block, each name holding its last block's record |
| Tle.FirstIndex | genai.py:60 | the index of the first occurrence of a name, with no earlier occurrence |
| Tle.LastIndex | genai.py:60 | the index of the last occurrence of a name, with no later occurrence |
| Tle.FirstOccurrenceStep | genai.py:60 | one more assignment keeps the keys in first-occurrence order |
| TimeGrid.SampleCount | genai.py:66-70 | the number of loop iterations: none for a negative window, otherwise the `c` with `(c-1)*step <= window < c*step` |
| TimeGrid.Grid | genai.py:66-70 | the closed-form grid. `SampleTimes` proves the loop equal to it, and `GridStart`, `GridSpacing` and `GridBounds` state its shape |
| TimeGrid.SampleTimes | genai.py:62-70 | the `while cur <= end` loop produces exactly the closed-form grid `end - window + k*step` for `k` up to `window / step` |
| TimeGrid.GridStart | genai.py:63-69 | the grid is non-empty exactly when the window is not negative, and it then starts at `end - window` |
| TimeGrid.GridSpacing | genai.py:70 | consecutive samples differ by exactly `step` |
| TimeGrid.GridBounds | genai.py:68 | every sample is at most `end`, and one more step would pass `end` |
| TimeGrid.GridIncreasing | genai.py:66-70 | the samples are strictly increasing |
| TimeGrid.ThirtyDaysEveryThreeHours | genai.py:62-70 | thirty days at three hours gives 241 samples, the first at `end - 30 days` and the last at `end` |
| TimeGrid.OneDayOneStep | genai.py:62-70 | one day at a one-day step gives the two instants `end - 1 day` and `end` |
| Trajectory.Unzip | genai.py:75 | `xs, ys, zs = zip(*pos)` succeeds exactly when `pos` is non-empty; then each coordinate sequence has `len(pos)` entries and index `k` reassembles `pos[k]`; otherwise it is the unpack error (expected 3, got 0) |
| Trajectory.UnzipThenPoints | genai.py:75 | reassembling the unpacked coordinates gives back the position list |
| Trajectory.PointsThenUnzip | genai.py:75 | unpacking the points of a track of equal-length coordinate sequences gives back the track |
| Trajectory.Propagated | genai.py:74-75 | propagating a record over the grid and unpacking succeeds exactly when the grid is non-empty. The track then has one entry per instant, entry `k` being the propagator's value at `times[k]`; an empty grid gives the unpack error (expected 3, got 0) |
| Trajectory.BuildFrom | genai.py:72-76 | tracks are built for the given names in order, each the propagated track of its record; an empty grid fails at the first name with the unpack error |
| Trajectory.BuildTracks | genai.py:72-76 | building succeeds exactly when there is no satellite or the grid is non-empty; the keys are the catalogue's keys in order and each track follows its record over the grid |
| Trajectory.AppendTrack | genai.py:76 | storing the next satellite's track appends its name and keeps the earlier tracks |
| Scene.ColorFor | genai.py:78-84 | every satellite gets a colour from the ten-colour palette |
| Scene.ColorCycles | genai.py:84 | colours repeat with period ten |
| Scene.ColorsDistinctWithinPeriod | genai.py:78-84 | any ten consecutive satellites get ten different colours |
| Scene.PointTrace | genai.py:85-88 | a one-point trace holds exactly the given position |
| Scene.InitialMarkers | genai.py:81-88 | one marker per satellite, in catalogue order, under the satellite's name, holding the single point at index 0 of its track |
| Scene.PathOverlays | genai.py:89-93 | one path per satellite, in catalogue order, named `<name> path`, whose coordinates are exactly the satellite's track |
| Scene.Snapshot | genai.py:104-113 | frame `k` is named `str(k)`, which reads back as `k`, and holds, for each satellite in order, one point under its name: the track's entry `k` |
| Scene.Frames | genai.py:102-113 | one frame per grid index, frame `k` named `str(k)` with one item per satellite. `FramesTranspose` and `FrameEntry` state the contents |
| Scene.Assemble | genai.py:115-117 | the figure has the `2m` scatter traces of `m` satellites, then the Earth surface last, and one frame per grid index. `FigureLayout` states which trace is where |
| Scene.ScattersLayout | genai.py:116 | in `data_init + orbit_lines + [earth]`, item `i` is marker `i`, item `m + i` is path `i` and the last item is the Earth |
| Scene.FramesTranspose | genai.py:102-113 | there is one frame per grid index, each with one point per satellite, and reading satellite `i` across the frames gives back its track |
| Scene.FrameEntry | genai.py:105-112 | frame `k` item `i` is satellite `i`'s point at index `k`, with its name, size 6 and its colour |
| Scene.FrameNames | genai.py:113 | frame `k` is named `str(k)`, which reads back as `k`, and different frames have different names |
| Scene.SatelliteConsistent | genai.py:83-112 | satellite `i` keeps its name and colour `i mod 10` in its initial marker (first position, size 5), its path (whole track, width 1, opacity 0.3, name plus " path") and its point in every frame |
| Scene.FigureLayout | genai.py:96-117 | the figure's data is the initial markers, then the path overlays, then the Earth surface, and its frames are the built frames |
| Pipeline.RunWith | genai.py:56-117 | the run succeeds exactly when every block parses and either there is no satellite or the window is not negative. A parse failure is reported as such, and a success has one frame per grid instant. `RunFrames` states the frames' contents |
| Pipeline.Run | genai.py:56-117 | with the script's 30 days and 3 hours, the run succeeds exactly when every block parses, and then has 241 frames |
| Pipeline.FramesShowRecords | genai.py:102-113 | when every track follows its record over the grid, item `i` of frame `k` is satellite `i`'s record propagated at `times[k]`, in colour `i mod 10` under its name |
| Pipeline.BuiltTracksUniform | genai.py:72-76 | built tracks all have the grid's length |
| Pipeline.ParseFailureStopsRun | genai.py:56-60 | a block that does not parse stops the run with that block's index and error, before any propagation |
| Pipeline.EmptyGridStopsRun | genai.py:66-76 | an empty grid stops the run at the first catalogued satellite with the unpack error |
| Pipeline.RunAssembles | genai.py:56-117 | when every block parses and the window is not negative, the run succeeds with the figure assembled from the built tracks |
| Pipeline.RunFrames | genai.py:56-113 | a successful run has one frame per grid instant, and in frame `k` satellite `i` is its record propagated at `times[k]`, drawn in colour `i mod 10` under its name |
| Pipeline.ScriptRunHas241Frames | genai.py:62-113 | with the script's 30-day window and 3-hour step, a run over parseable blocks has 241 frames, the last sampled at `now` |
| Pipeline.OneSatelliteOneDay | genai.py:62-117 | one satellite over one day at a one-day step gives two frames and a figure of one marker, one two-point path and the Earth |
| Results.Collect | genai.py:57-59 | all results are successes and their values are collected in order, or the first failure is reported with its index |

## Left out

- Orbital propagation (`EarthSatellite`, `sat.at(t).position.km`, genai.py:60, 74) is Skyfield's SGP4 implementation. It is a total function parameter. Errors from the element lines at construction time are not modelled, and neither are NaN results for decayed orbits.
- `load.timescale()` and `ts.utc(cur)` (genai.py:55, 69) only convert instants for Skyfield. Grid instants are passed to the propagator directly.
- `datetime.now(tz=utc)` (genai.py:62) is the parameter `now`.
- Instants are unbounded integers. `datetime`'s range (years 1 to 9999) is not modelled, and neither is the `OverflowError` that `end_time - timedelta(days=30)` (genai.py:63) or `cur += step` (genai.py:70) raises near either end of it.
- Positions are floating point in the source, and their coordinates are an opaque type here.
- The Earth sphere's trigonometric mesh (genai.py:95-98) is left out. Only its radius (6371 km), colour scale and opacity are kept.
- Page setup, the chart call, the axis ranges, the margins and the play/pause buttons (genai.py:9-10, 118-141) are presentation only.
- The ten hard-coded blocks (genai.py:13-53) are not restated. Each is three break-free lines joined by newlines, the last one non-empty, so `Tle.ParseJoined` gives its record and `Pipeline.ScriptRunHas241Frames` applies to the list of them.
- A step of zero or less is excluded by a precondition. The script's step is the constant 3 hours (genai.py:64); with a zero step its loop would never end, and with a negative step it would end in an `OverflowError` once `cur` passes the earliest `datetime`.
- A window below zero is modelled as in the source: an empty grid and the unpack error. There is no separate range error.
- Duplicate names follow the source's dict assignment (last record wins, first position kept). No duplicate-name error is raised.
- Per-satellite isolation of propagation failures is not modelled. The source has none.

=== FILE: dicts.dfy ===
/** Python's `dict`: a finite map whose iteration order is the order in which keys were first inserted. */
module Dicts {

  datatype Dict<K, V> = Dict(keys: seq<K>, entries: map<K, V>) {

    /** `keys` lists every key of `entries` exactly once, in insertion order. */
    ghost predicate Valid() {
      && Distinct(keys)
      && (forall k :: k in entries ==> k in keys)
      && (forall i :: 0 <= i < |keys| ==> keys[i] in entries)
    }
  }

  /** No element occurs twice in `ks`. */
  predicate Distinct<K(==)>(ks: seq<K>) {
    forall i, j :: 0 <= i < j < |ks| ==> ks[i] != ks[j]
  }

  /** Dropping the last element keeps the rest distinct, and the last one is not among them. */
  lemma DistinctSplit<K>(ks: seq<K>)
    requires ks != [] && Distinct(ks)
    ensures Distinct(ks[..|ks| - 1])
    ensures ks[|ks| - 1] !in ks[..|ks| - 1]
    ensures ks == ks[..|ks| - 1] + [ks[|ks| - 1]]
  {
    var front := ks[..|ks| - 1];
    forall i, j | 0 <= i < j < |front|
      ensures front[i] != front[j]
    {
      assert front[i] == ks[i] && front[j] == ks[j];
    }
    forall i | 0 <= i < |front|
      ensures front[i] != ks[|ks| - 1]
    {
      assert front[i] == ks[i];
    }
  }

  /** `{}` */
  function Empty<K, V>(): (d: Dict<K, V>)
    ensures d.Valid() && d.keys == [] && d.entries == map[]
  {
    Dict([], map[])
  }

  /**
   * `d[k] = v`: afterwards `k` maps to `v` and every other key keeps its
   * value; a new key goes to the end of the order, an existing one keeps
   * its position.
   */
  function Put<K, V>(d: Dict<K, V>, k: K, v: V): (d': Dict<K, V>)
    requires d.Valid()
    ensures d'.Valid()
    ensures k in d'.entries && d'.entries[k] == v
    ensures d'.entries.Keys == d.entries.Keys + {k}
    ensures forall x :: x != k && x in d.entries ==> d'.entries[x] == d.entries[x]
    ensures |d.keys| <= |d'.keys| && d'.keys[..|d.keys|] == d.keys
    ensures k in d.entries ==> d'.keys == d.keys
    ensures k !in d.entries ==> d'.keys == d.keys + [k]
  {
    if k in d.entries then Dict(d.keys, d.entries[k := v]) else Dict(d.keys + [k], d.entries[k := v])
  }

  /** Inserting a new key appends it and leaves the value of every listed key alone. */
  lemma PutNewKey<K, V>(d: Dict<K, V>, k: K, v: V)
    requires d.Valid() && k !in d.entries
    ensures Put(d, k, v).keys == d.keys + [k]
    ensures forall i :: 0 <= i < |d.keys| ==> Put(d, k, v).entries[d.keys[i]] == d.entries[d.keys[i]]
  {
  }
}

=== FILE: pipeline.dfy ===
/**
 * The whole script as one function: parse the blocks, sample the trailing
 * window, propagate every satellite, assemble the animated figure. The
 * current time and the propagator are parameters; rendering is not modelled.
 */
module Pipeline {
  import opened Results
  import opened Dicts
  import opened Tle
  import opened TimeGrid
  import opened Trajectory
  import opened Scene

  /** Why a run stops: a block that does not parse, or a satellite whose positions cannot be unpacked. */
  datatype Failure = ParseFailed(load: LoadError) | TrackFailed(track: TrackError)

  /** Tracks that follow the catalogue's records over the grid are uniform in the grid's length. */
  lemma BuiltTracksUniform<C>(cat: Catalogue, times: seq<Instant>, propagate: (Record, Instant) -> Vec3<C>)
    requires cat.Valid() && BuildTracks(cat, times, propagate).Ok?
    ensures Uniform(BuildTracks(cat, times, propagate).value, |times|)
  {
    var ts := BuildTracks(cat, times, propagate).value;
    forall i | 0 <= i < |ts.keys|
      ensures |times| > 0 && ts.entries[ts.keys[i]].HasLength(|times|)
    {
      assert Follows(ts.entries[cat.keys[i]], cat.entries[cat.keys[i]], times, propagate);
    }
  }

  /** The pipeline for a given window and step, ending at `now`. */
  function RunWith<C>(blocks: seq<string>, now: Instant, window: Duration, step: Duration,
                      propagate: (Record, Instant) -> Vec3<C>): (r: Result<Figure<C>, Failure>)
    requires step > 0
    ensures r.Ok? <==> Load(blocks).Ok? && (Load(blocks).value.keys == [] || window >= 0)
    ensures !Load(blocks).Ok? ==> r.Err? && r.error.ParseFailed?
    ensures r.Ok? ==> |r.value.frames| == SampleCount(window, step)
  {
    GridStart(now, window, step);
    var cat :- Load(blocks).MapFailure(e => ParseFailed(e));
    var times := Grid(now, window, step);
    var ts :- BuildTracks(cat, times, propagate).MapFailure(e => TrackFailed(e));
    BuiltTracksUniform(cat, times, propagate);
    Ok(Assemble(ts, |times|))
  }

  /** The script: a 30-day window sampled every 3 hours, ending at `now`. */
  function Run<C>(blocks: seq<string>, now: Instant, propagate: (Record, Instant) -> Vec3<C>): (r: Result<Figure<C>, Failure>)
    ensures r.Ok? <==> forall i :: 0 <= i < |blocks| ==> ParseBlock(blocks[i]).Ok?
    ensures r.Ok? ==> |r.value.frames| == 241
  {
    ThirtyDaysEveryThreeHours(now);
    RunWith(blocks, now, Window, Step, propagate)
  }

  /**
   * A block that does not parse stops the run with that block's error,
   * whatever the propagator: nothing is propagated.
   */
  lemma ParseFailureStopsRun<C>(blocks: seq<string>, now: Instant, window: Duration, step: Duration,
                                propagate: (Record, Instant) -> Vec3<C>, i: nat)
    requires step > 0 && i < |blocks| && ParseBlock(blocks[i]).Err?
    requires forall j :: 0 <= j < i ==> ParseBlock(blocks[j]).Ok?
    ensures RunWith(blocks, now, window, step, propagate) == Err(ParseFailed(BadBlock(i, ParseBlock(blocks[i]).error)))
  {
    var r := ParseAll(blocks);
    assert r.Err?;
  }

  /** An empty grid (a negative window) stops the run at the first catalogued satellite. */
  lemma EmptyGridStopsRun<C>(blocks: seq<string>, now: Instant, window: Duration, step: Duration,
                             propagate: (Record, Instant) -> Vec3<C>)
    requires step > 0 && window < 0
    requires Load(blocks).Ok? && Load(blocks).value.keys != []
    ensures RunWith(blocks, now, window, step, propagate)
              == Err(TrackFailed(EmptyTrack(Load(blocks).value.keys[0], NotEnoughValues(3, 0))))
  {
    GridStart(now, window, step);
  }

  /** When every block parses and the window is not negative, the run is the assembled figure of the built tracks. */
  lemma RunAssembles<C>(blocks: seq<string>, now: Instant, window: Duration, step: Duration,
                        propagate: (Record, Instant) -> Vec3<C>)
    requires step > 0 && window >= 0
    requires forall i :: 0 <= i < |blocks| ==> ParseBlock(blocks[i]).Ok?
    ensures Load(blocks).Ok?
    ensures var cat, times := Load(blocks).value, Grid(now, window, step);
            && BuildTracks(cat, times, propagate).Ok?
            && Uniform(BuildTracks(cat, times, propagate).value, |times|)
            && RunWith(blocks, now, window, step, propagate)
                 == Ok(Assemble(BuildTracks(cat, times, propagate).value, |times|))
  {
    var cat := Load(blocks).value;
    var times := Grid(now, window, step);
    GridStart(now, window, step);
    BuiltTracksUniform(cat, times, propagate);
  }

  /**
   * When every block parses and the window is not negative, the run
   * succeeds with one frame per grid instant; in frame `k`, satellite `i`
   * (catalogue order) is its record propagated at instant `k`, drawn in
   * colour `i mod 10` under its own name.
   */
  lemma RunFrames<C>(blocks: seq<string>, now: Instant, window: Duration, step: Duration,
                     propagate: (Record, Instant) -> Vec3<C>)
    requires step > 0 && window >= 0
    requires forall i :: 0 <= i < |blocks| ==> ParseBlock(blocks[i]).Ok?
    ensures var r, cat, times := RunWith(blocks, now, window, step, propagate), Load(blocks).value, Grid(now, window, step);
            && r.Ok?
            && |r.value.frames| == |times|
            && forall k, i :: 0 <= k < |times| && 0 <= i < |cat.keys| ==>
                 && |r.value.frames[k].data| == |cat.keys|
                 && r.value.frames[k].data[i]
                      == PointTrace(cat.keys[i], FrameMarkerSize, ColorFor(i), propagate(cat.entries[cat.keys[i]], times[k]))
  {
    RunAssembles(blocks, now, window, step, propagate);
    var cat, times := Load(blocks).value, Grid(now, window, step);
    FramesShowRecords(cat, times, propagate, BuildTracks(cat, times, propagate).value);
  }

  /** When every track follows its record, frame `k` shows satellite `i`'s record propagated at `times[k]`. */
  lemma FramesShowRecords<C>(cat: Catalogue, times: seq<Instant>, propagate: (Record, Instant) -> Vec3<C>, ts: Tracks<C>)
    requires cat.Valid() && Uniform(ts, |times|) && ts.keys == cat.keys
    requires forall i :: 0 <= i < |cat.keys| ==>
               Follows(ts.entries[cat.keys[i]], cat.entries[cat.keys[i]], times, propagate)
    ensures forall k, i :: 0 <= k < |times| && 0 <= i < |cat.keys| ==>
              Frames(ts, |times|)[k].data[i]
                == PointTrace(cat.keys[i], FrameMarkerSize, ColorFor(i), propagate(cat.entries[cat.keys[i]], times[k]))
  {
    forall k, i | 0 <= k < |times| && 0 <= i < |cat.keys|
      ensures Frames(ts, |times|)[k].data[i]
                == PointTrace(cat.keys[i], FrameMarkerSize, ColorFor(i), propagate(cat.entries[cat.keys[i]], times[k]))
    {
      var name := cat.keys[i];
      assert Follows(ts.entries[name], cat.entries[name], times, propagate);
      FrameEntry(ts, |times|, k, i);
    }
  }

  /** With the script's parameters a successful run has 241 frames, the last at `now`. */
  lemma ScriptRunHas241Frames<C>(blocks: seq<string>, now: Instant, propagate: (Record, Instant) -> Vec3<C>)
    requires forall i :: 0 <= i < |blocks| ==> ParseBlock(blocks[i]).Ok?
    ensures |Grid(now, Window, Step)| == 241 && Grid(now, Window, Step)[240] == now
    ensures Run(blocks, now, propagate).Ok?
    ensures |Run(blocks, now, propagate).value.frames| == 241
  {
    ThirtyDaysEveryThreeHours(now);
    RunAssembles(blocks, now, Window, Step, propagate);
    var ts := BuildTracks(Load(blocks).value, Grid(now, Window, Step), propagate).value;
    FramesTranspose(ts, 241);
  }

  /**
   * One satellite over one day at a 24-hour step: two grid instants, two
   * frames, and a figure holding one marker, one two-point path and the Earth.
   */
  lemma OneSatelliteOneDay<C>(blocks: seq<string>, now: Instant, propagate: (Record, Instant) -> Vec3<C>)
    requires forall i :: 0 <= i < |blocks| ==> ParseBlock(blocks[i]).Ok?
    requires |Load(blocks).value.keys| == 1
    ensures var r := RunWith(blocks, now, Day, Day, propagate);
            && r.Ok?
            && |r.value.frames| == 2
            && |r.value.data| == 3
            && r.value.data[1].Scatter?
            && |r.value.data[1].trace.xs| == 2
  {
    OneDayOneStep(now);
    var cat, times := Load(blocks).value, Grid(now, Day, Day);
    BuiltTracksUniform(cat, times, propagate);
    var ts := BuildTracks(cat, times, propagate).value;
    var fig := Assemble(ts, 2);
    assert RunWith(blocks, now, Day, Day, propagate) == Ok(fig);
    var path := PathOverlays(ts, 2)[0];
    assert fig.data[1] == Scatter(path) by {
      FigureLayout(ts, 2);
    }
    assert Track(path.xs, path.ys, path.zs) == ts.entries[ts.keys[0]];
  }
}

=== FILE: pystr.dfy ===
/**
 * The three pieces of Python's `str` the script relies on: `strip()` with no
 * argument, `splitlines()` without kept ends, and `str(k)` of a non-negative int.
 */
module PyStr {

  /** Characters for which Python's `str.isspace()` holds; `strip()` removes exactly these. */
  const SpaceChars: set<char> := {
    '\t', '\n', '\U{0B}', '\U{0C}', '\r', '\U{1C}', '\U{1D}', '\U{1E}', '\U{1F}', ' ',
    '\U{85}', '\U{A0}', '\U{1680}',
    '\U{2000}', '\U{2001}', '\U{2002}', '\U{2003}', '\U{2004}', '\U{2005}',
    '\U{2006}', '\U{2007}', '\U{2008}', '\U{2009}', '\U{200A}',
    '\U{2028}', '\U{2029}', '\U{202F}', '\U{205F}', '\U{3000}'}

  predicate IsSpace(c: char) {
    c in SpaceChars
  }

  /** Characters at which `str.splitlines()` ends a line ("\r\n" is one break of two characters). */
  predicate IsLineBreak(c: char) {
    || c == '\n'
    || c == '\r'
    || c == '\U{0B}'
    || c == '\U{0C}'
    || '\U{1C}' <= c <= '\U{1E}'
    || c == '\U{85}'
    || c == '\U{2028}'
    || c == '\U{2029}'
  }

  predicate AllSpace(s: string) {
    forall i :: 0 <= i < |s| ==> IsSpace(s[i])
  }

  predicate NoLineBreak(s: string) {
    forall i :: 0 <= i < |s| ==> !IsLineBreak(s[i])
  }

  /** Neither end of `s` is whitespace: what `strip()` leaves behind. */
  predicate Unpadded(s: string) {
    s == [] || (!IsSpace(s[0]) && !IsSpace(s[|s| - 1]))
  }

  /** `r` is the infix of `s` at offset `i`, with only whitespace cut from either end. */
  predicate PaddedAt(s: string, r: string, i: nat) {
    i + |r| <= |s| && s[i..i + |r|] == r && AllSpace(s[..i]) && AllSpace(s[i + |r|..])
  }

  lemma AllSpaceConcat(a: string, b: string)
    requires AllSpace(a) && AllSpace(b)
    ensures AllSpace(a + b)
  {
    forall i | 0 <= i < |a + b|
      ensures IsSpace((a + b)[i])
    {
      if i < |a| {
        assert (a + b)[i] == a[i];
      } else {
        assert (a + b)[i] == b[i - |a|];
      }
    }
  }

  /** `r` is `s` with all of its leading whitespace cut off. */
  predicate FrontTrimmed(s: string, r: string) {
    |r| <= |s| && r == s[|s| - |r|..] && AllSpace(s[..|s| - |r|]) && (r == [] || !IsSpace(r[0]))
  }

  /** `r` is `s` with all of its trailing whitespace cut off. */
  predicate BackTrimmed(s: string, r: string) {
    |r| <= |s| && r == s[..|r|] && AllSpace(s[|r|..]) && (r == [] || !IsSpace(r[|r| - 1]))
  }

  /** `str.lstrip()`: `s` without its leading whitespace. */
  function TrimStart(s: string): (r: string)
    ensures FrontTrimmed(s, r)
  {
    if s != [] && IsSpace(s[0]) then
      var r := TrimStart(s[1..]);
      assert s[..|s| - |r|] == [s[0]] + s[1..][..|s| - 1 - |r|];
      AllSpaceConcat([s[0]], s[1..][..|s| - 1 - |r|]);
      r
    else s
  }

  /** `str.rstrip()`: `s` without its trailing whitespace. */
  function TrimEnd(s: string): (r: string)
    ensures BackTrimmed(s, r)
  {
    if s != [] && IsSpace(s[|s| - 1]) then
      var r := TrimEnd(s[..|s| - 1]);
      assert s[|r|..] == s[..|s| - 1][|r|..] + [s[|s| - 1]];
      AllSpaceConcat(s[..|s| - 1][|r|..], [s[|s| - 1]]);
      r
    else s
  }

  /** `str.strip()`: the largest infix of `s` that starts and ends with a non-space. */
  function Strip(s: string): (r: string)
    ensures Unpadded(r)
    ensures PaddedAt(s, r, |s| - |TrimStart(s)|)
  {
    var t := TrimStart(s);
    var r := TrimEnd(t);
    StripShape(s, t, r);
    r
  }

  /** Cutting whitespace from the front of `s` (leaving `t`) and then from the back of `t` (leaving `r`) leaves an unpadded infix of `s`. */
  lemma StripShape(s: string, t: string, r: string)
    requires FrontTrimmed(s, t) && BackTrimmed(t, r)
    ensures Unpadded(r)
    ensures PaddedAt(s, r, |s| - |t|)
  {
    PrefixOfSuffix(s, |s| - |t|, |r|);
    if r != [] {
      assert r[0] == t[0];
    }
  }

  /** The first `n` characters of `s[i..]` and what follows them, as slices of `s`. */
  lemma PrefixOfSuffix(s: string, i: nat, n: nat)
    requires i + n <= |s|
    ensures s[i..][..n] == s[i..i + n]
    ensures s[i..][n..] == s[i + n..]
  {
  }

  /** Stripping a string that has no whitespace at either end changes nothing. */
  lemma StripUnpadded(s: string)
    requires Unpadded(s)
    ensures Strip(s) == s
  {
    if s != [] {
      assert TrimStart(s) == s;
    }
  }

  /** `strip()` is idempotent. */
  lemma StripIdempotent(s: string)
    ensures Strip(Strip(s)) == Strip(s)
  {
    StripUnpadded(Strip(s));
  }

  /** Index of the first line break of `s`, or `|s|` when it has none. */
  function LineEnd(s: string): (i: nat)
    ensures i <= |s|
    ensures NoLineBreak(s[..i])
    ensures i < |s| ==> IsLineBreak(s[i])
  {
    if s == [] || IsLineBreak(s[0]) then 0
    else
      var j := LineEnd(s[1..]);
      assert s[..1 + j] == [s[0]] + s[1..][..j];
      1 + j
  }

  /** Number of characters the line break at `s[i]` occupies. */
  function BreakWidth(s: string, i: nat): nat
    requires i < |s|
  {
    if s[i] == '\r' && i + 1 < |s| && s[i + 1] == '\n' then 2 else 1
  }

  /**
   * `str.splitlines()`: the lines of `s` without their line breaks; a final
   * line break does not open another (empty) line.
   */
  function SplitLines(s: string): (lines: seq<string>)
    ensures forall k :: 0 <= k < |lines| ==> NoLineBreak(lines[k])
    ensures s == [] <==> lines == []
    decreases |s|
  {
    if s == [] then []
    else
      var i := LineEnd(s);
      if i == |s| then
        assert s[..i] == s;
        [s]
      else
        [s[..i]] + SplitLines(s[i + BreakWidth(s, i)..])
  }

  /** The lines of `ls`, each followed by "\n". */
  function Terminated(ls: seq<string>): string {
    if ls == [] then [] else ls[0] + "\n" + Terminated(ls[1..])
  }

  /** The lines of `ls` separated by "\n", as a triple-quoted Python literal writes them. */
  function Joined(ls: seq<string>): string
    requires ls != []
  {
    if |ls| == 1 then ls[0] else ls[0] + "\n" + Joined(ls[1..])
  }

  /** The first break of `s` sits at `i` when `s[..i]` holds none and `s[i]` is one (or `i` is the end). */
  lemma LineEndOfPrefix(s: string, i: nat)
    requires i <= |s| && NoLineBreak(s[..i])
    requires i < |s| ==> IsLineBreak(s[i])
    ensures LineEnd(s) == i
    decreases i
  {
    if i > 0 {
      assert s[..i][0] == s[0];
      assert s[1..][..i - 1] == s[..i][1..];
      LineEndOfPrefix(s[1..], i - 1);
    }
  }

  /** A non-empty string without a break is a single line. */
  lemma SplitSingle(line: string)
    requires line != [] && NoLineBreak(line)
    ensures SplitLines(line) == [line]
  {
    assert line[..|line|] == line;
    LineEndOfPrefix(line, |line|);
  }

  lemma SplitAtFirstBreak(line: string, rest: string)
    requires NoLineBreak(line)
    ensures SplitLines(line + "\n" + rest) == [line] + SplitLines(rest)
  {
    var s := line + "\n" + rest;
    assert s[..|line|] == line;
    assert s[|line|] == '\n';
    LineEndOfPrefix(s, |line|);
    assert s[|line| + 1..] == rest;
  }

  /** Lines each terminated by "\n" are split back into exactly those lines. */
  lemma {:induction false} SplitTerminated(ls: seq<string>)
    requires forall k :: 0 <= k < |ls| ==> NoLineBreak(ls[k])
    ensures SplitLines(Terminated(ls)) == ls
  {
    if ls != [] {
      SplitAtFirstBreak(ls[0], Terminated(ls[1..]));
      SplitTerminated(ls[1..]);
    }
  }

  /** Lines joined by "\n" are split back into exactly those lines, provided the last is not empty. */
  lemma {:induction false} SplitJoined(ls: seq<string>)
    requires ls != [] && ls[|ls| - 1] != []
    requires forall k :: 0 <= k < |ls| ==> NoLineBreak(ls[k])
    ensures SplitLines(Joined(ls)) == ls
  {
    if |ls| == 1 {
      SplitSingle(ls[0]);
    } else {
      var tail := ls[1..];
      assert tail[|tail| - 1] == ls[|ls| - 1];
      assert forall k :: 0 <= k < |tail| ==> tail[k] == ls[k + 1];
      SplitJoined(tail);
      SplitAtFirstBreak(ls[0], Joined(tail));
      assert ls == [ls[0]] + tail;
    }
  }

  function DigitChar(d: nat): char
    requires d < 10
  {
    "0123456789"[d]
  }

  function DigitValue(c: char): nat {
    if '0' <= c <= '9' then (c - '0') as nat else 0
  }

  predicate IsDigit(c: char) {
    '0' <= c <= '9'
  }

  /** `str(n)` for a non-negative int: its decimal digits, no sign and no leading zero. */
  function Decimal(n: nat): (s: string)
    ensures s != []
    ensures forall i :: 0 <= i < |s| ==> IsDigit(s[i])
    ensures s[0] == '0' ==> n == 0
    ensures |s| > 1 ==> s[0] != '0'
  {
    if n < 10 then [DigitChar(n)] else Decimal(n / 10) + [DigitChar(n % 10)]
  }

  /** `int(s)` for a string of decimal digits. */
  function ParseDecimal(s: string): nat {
    if s == [] then 0 else 10 * ParseDecimal(s[..|s| - 1]) + DigitValue(s[|s| - 1])
  }

  /** `int(str(n)) == n`. */
  lemma {:induction false} DecimalRoundTrip(n: nat)
    ensures ParseDecimal(Decimal(n)) == n
  {
    if n >= 10 {
      var s := Decimal(n);
      assert s[..|s| - 1] == Decimal(n / 10);
      DecimalRoundTrip(n / 10);
    }
  }

  /** Distinct numbers have distinct decimal names. */
  lemma DecimalInjective(a: nat, b: nat)
    requires a != b
    ensures Decimal(a) != Decimal(b)
  {
    DecimalRoundTrip(a);
    DecimalRoundTrip(b);
  }
}

=== FILE: results.dfy ===
/** Success/failure values, used with `:-` wherever the script raises an exception. */
module Results {

  datatype Result<+T, +E> = Ok(value: T) | Err(error: E) {

    predicate IsFailure() {
      Err?
    }

    function PropagateFailure<U>(): Result<U, E>
      requires Err?
    {
      Err(error)
    }

    function Extract(): T
      requires Ok?
    {
      value
    }

    /** Keeps a success as it is and rewraps a failure. */
    function MapFailure<F>(wrap: E -> F): Result<T, F>
    {
      match this
      case Ok(v) => Ok(v)
      case Err(e) => Err(wrap(e))
    }
  }

  /** A failure found at position `index` of a sequence of results. */
  datatype Located<+E> = Located(index: nat, error: E)

  /** All the values of `rs` in order, or else the first failure and where it is. */
  function Collect<T, E>(rs: seq<Result<T, E>>): (r: Result<seq<T>, Located<E>>)
    ensures r.Ok? ==> |r.value| == |rs| && forall i :: 0 <= i < |rs| ==> rs[i] == Ok(r.value[i])
    ensures r.Err? ==> r.error.index < |rs| && rs[r.error.index] == Err(r.error.error)
    ensures r.Err? ==> forall j :: 0 <= j < r.error.index ==> rs[j].Ok?
  {
    if rs == [] then Ok([])
    else
      var front := rs[..|rs| - 1];
      assert forall i :: 0 <= i < |front| ==> rs[i] == front[i];
      var done := Collect(front);
      if done.Err? then Err(done.error)
      else match rs[|rs| - 1]
        case Ok(v) => Ok(done.value + [v])
        case Err(e) => Err(Located(|rs| - 1, e))
  }
}

=== FILE: scene.dfy ===
/**
 * The animation assembler: per-satellite tracks become the figure's static
 * traces (an initial marker and a faded full path per satellite, then the
 * Earth) and one frame per time index holding every satellite's point at
 * that index. Satellite `i` in catalogue order is drawn in palette colour
 * `i mod 10` everywhere.
 */
module Scene {
  import opened PyStr
  import opened Dicts
  import opened Trajectory

  /** The ten-colour palette, cycled by satellite index. */
  const Palette: seq<string> :=
    ["red", "blue", "green", "orange", "purple", "cyan", "magenta", "yellow", "pink", "brown"]

  const InitialMarkerSize: nat := 5
  const FrameMarkerSize: nat := 6
  const PathWidth: nat := 1
  const PathOpacity: real := 0.3
  const PathSuffix: string := " path"

  /** The reference sphere's radius (mean Earth radius, km), colour scale and opacity. */
  const EarthRadiusKm: nat := 6371
  const EarthColorscale: string := "Blues"
  const EarthOpacity: real := 0.6

  /** `colors[i % len(colors)]`: the colour of the satellite at index `i`. */
  function ColorFor(i: nat): (c: string)
    ensures c in Palette
  {
    Palette[i % |Palette|]
  }

  /** Colours repeat with the palette's period. */
  lemma ColorCycles(i: nat)
    ensures ColorFor(i + |Palette|) == ColorFor(i)
  {
    assert (i + 10) % 10 == i % 10;
  }

  /** Any ten consecutive satellites get ten different colours. */
  lemma ColorsDistinctWithinPeriod(i: nat, j: nat)
    requires i < j < i + |Palette|
    ensures ColorFor(i) != ColorFor(j)
  {
    var a, b := i % |Palette|, j % |Palette|;
    assert a != b;
  }

  /** How a scatter trace is drawn: point markers of a size, or a line of a width and opacity. */
  datatype Style = Markers(size: nat) | Lines(width: nat, opacity: real)

  /** A `Scatter3d` trace: its legend name, style, colour and coordinate columns. */
  datatype Trace<C> = Trace(name: string, style: Style, color: string, xs: seq<C>, ys: seq<C>, zs: seq<C>)

  /** The reference sphere `Surface`; its mesh coordinates are not modelled. */
  datatype Surface = Surface(radiusKm: nat, colorscale: string, opacity: real)

  /** One entry of the figure's `data` list. */
  datatype Item<C> = Scatter(trace: Trace<C>) | Earth(surface: Surface)

  /** An animation frame: its name and the traces it shows. */
  datatype Frame<C> = Frame(name: string, data: seq<Trace<C>>)

  /** The figure: static data and the ordered frames. */
  datatype Figure<C> = Figure(data: seq<Item<C>>, frames: seq<Frame<C>>)

  /** A one-point marker trace at position `p`. */
  function PointTrace<C>(name: string, size: nat, color: string, p: Vec3<C>): (t: Trace<C>)
    ensures |t.xs| == 1 && |t.ys| == 1 && |t.zs| == 1
    ensures PointOf(t) == p
  {
    Trace(name, Markers(size), color, [p.x], [p.y], [p.z])
  }

  /** The position a one-point trace shows. */
  function PointOf<C>(t: Trace<C>): Vec3<C>
    requires |t.xs| > 0 && |t.ys| > 0 && |t.zs| > 0
  {
    Vec3(t.xs[0], t.ys[0], t.zs[0])
  }

  /** Every satellite's track is `n` long, and `n` is positive when there is a satellite to draw. */
  ghost predicate Uniform<C>(ts: Tracks<C>, n: nat) {
    && ts.Valid()
    && forall i :: 0 <= i < |ts.keys| ==> n > 0 && ts.entries[ts.keys[i]].HasLength(n)
  }

  /** The track of satellite `i` in catalogue order. */
  function TrackAt<C>(ts: Tracks<C>, n: nat, i: nat): (t: Track<C>)
    requires Uniform(ts, n) && i < |ts.keys|
    ensures t.HasLength(n)
  {
    ts.entries[ts.keys[i]]
  }

  /** `data_init`: satellite `i`'s marker at its first position. */
  function InitialMarkers<C>(ts: Tracks<C>, n: nat): (ms: seq<Trace<C>>)
    requires Uniform(ts, n)
    ensures |ms| == |ts.keys|
    ensures forall i :: 0 <= i < |ms| ==>
              && ms[i].name == ts.keys[i]
              && |ms[i].xs| == 1 && |ms[i].ys| == 1 && |ms[i].zs| == 1
              && PointOf(ms[i]) == ts.entries[ts.keys[i]].At(0)
  {
    seq(|ts.keys|, i requires 0 <= i < |ts.keys| =>
      PointTrace(ts.keys[i], InitialMarkerSize, ColorFor(i), TrackAt(ts, n, i).At(0)))
  }

  /** `orbit_lines`: satellite `i`'s whole track as a faded line named "<name> path". */
  function PathOverlays<C>(ts: Tracks<C>, n: nat): (ps: seq<Trace<C>>)
    requires Uniform(ts, n)
    ensures |ps| == |ts.keys|
    ensures forall i :: 0 <= i < |ps| ==>
              && ps[i].name == ts.keys[i] + PathSuffix
              && Track(ps[i].xs, ps[i].ys, ps[i].zs) == ts.entries[ts.keys[i]]
  {
    seq(|ts.keys|, i requires 0 <= i < |ts.keys| =>
      var t := TrackAt(ts, n, i);
      Trace(ts.keys[i] + PathSuffix, Lines(PathWidth, PathOpacity), ColorFor(i), t.xs, t.ys, t.zs))
  }

  /** Frame `k`, named `str(k)`: every satellite's point at time index `k`, in catalogue order. */
  function Snapshot<C>(ts: Tracks<C>, n: nat, k: nat): (f: Frame<C>)
    requires Uniform(ts, n) && k < n
    ensures f.name == Decimal(k)
    ensures ParseDecimal(f.name) == k
    ensures |f.data| == |ts.keys|
    ensures forall i :: 0 <= i < |f.data| ==>
              && f.data[i].name == ts.keys[i]
              && |f.data[i].xs| == 1 && |f.data[i].ys| == 1 && |f.data[i].zs| == 1
              && PointOf(f.data[i]) == ts.entries[ts.keys[i]].At(k)
  {
    DecimalRoundTrip(k);
    Frame(Decimal(k), seq(|ts.keys|, i requires 0 <= i < |ts.keys| =>
      PointTrace(ts.keys[i], FrameMarkerSize, ColorFor(i), TrackAt(ts, n, i).At(k))))
  }

  /** `frames`: one snapshot per time index. */
  function Frames<C>(ts: Tracks<C>, n: nat): (fs: seq<Frame<C>>)
    requires Uniform(ts, n)
    ensures |fs| == n
    ensures forall k :: 0 <= k < n ==> fs[k].name == Decimal(k) && ParseDecimal(fs[k].name) == k && |fs[k].data| == |ts.keys|
  {
    seq(n, k requires 0 <= k < n => Snapshot(ts, n, k))
  }

  /** Traces as entries of the figure's data list. */
  function Scatters<C>(traces: seq<Trace<C>>): (items: seq<Item<C>>) {
    seq(|traces|, i requires 0 <= i < |traces| => Scatter(traces[i]))
  }

  /** `go.Figure(data=data_init + orbit_lines + [earth], frames=frames)`. */
  function Assemble<C>(ts: Tracks<C>, n: nat): (fig: Figure<C>)
    requires Uniform(ts, n)
    ensures |fig.data| == 2 * |ts.keys| + 1
    ensures forall j :: 0 <= j < 2 * |ts.keys| ==> fig.data[j].Scatter?
    ensures fig.data[2 * |ts.keys|] == Earth(Surface(EarthRadiusKm, EarthColorscale, EarthOpacity))
    ensures |fig.frames| == n
  {
    Figure(Scatters(InitialMarkers(ts, n)) + Scatters(PathOverlays(ts, n))
           + [Earth(Surface(EarthRadiusKm, EarthColorscale, EarthOpacity))],
           Frames(ts, n))
  }

  /** Every frame shows exactly one single-point trace per satellite. */
  ghost predicate Rectangular<C>(fs: seq<Frame<C>>, m: nat) {
    forall k :: 0 <= k < |fs| ==>
      |fs[k].data| == m &&
      forall i :: 0 <= i < m ==> |fs[k].data[i].xs| == 1 && |fs[k].data[i].ys| == 1 && |fs[k].data[i].zs| == 1
  }

  /** Satellite `i`'s track read back out of the frames: its point in frame 0, frame 1, and so on. */
  function Column<C>(fs: seq<Frame<C>>, m: nat, i: nat): (t: Track<C>)
    requires Rectangular(fs, m) && i < m
    ensures t.HasLength(|fs|)
  {
    Track(seq(|fs|, k requires 0 <= k < |fs| => fs[k].data[i].xs[0]),
          seq(|fs|, k requires 0 <= k < |fs| => fs[k].data[i].ys[0]),
          seq(|fs|, k requires 0 <= k < |fs| => fs[k].data[i].zs[0]))
  }

  /**
   * The frames are the exact transpose of the tracks: there are `n` of them,
   * each holds one point per satellite, and reading satellite `i` back out
   * of the frames gives its whole track again.
   */
  lemma FramesTranspose<C>(ts: Tracks<C>, n: nat)
    requires Uniform(ts, n)
    ensures |Frames(ts, n)| == n
    ensures Rectangular(Frames(ts, n), |ts.keys|)
    ensures forall i :: 0 <= i < |ts.keys| ==> Column(Frames(ts, n), |ts.keys|, i) == ts.entries[ts.keys[i]]
  {
    var fs := Frames(ts, n);
    forall i | 0 <= i < |ts.keys|
      ensures Column(fs, |ts.keys|, i) == ts.entries[ts.keys[i]]
    {
      var c, t := Column(fs, |ts.keys|, i), TrackAt(ts, n, i);
      assert c.xs == t.xs;
      assert c.ys == t.ys;
      assert c.zs == t.zs;
    }
  }

  /** Frame `k` holds one point per satellite; satellite `i`'s point is its track at index `k`. */
  lemma FrameEntry<C>(ts: Tracks<C>, n: nat, k: nat, i: nat)
    requires Uniform(ts, n) && k < n && i < |ts.keys|
    ensures |Frames(ts, n)[k].data| == |ts.keys|
    ensures Frames(ts, n)[k].data[i] == PointTrace(ts.keys[i], FrameMarkerSize, ColorFor(i), ts.entries[ts.keys[i]].At(k))
  {
  }

  /** Frame `k` is named `str(k)`, so the names are pairwise different and read back as their index. */
  lemma FrameNames<C>(ts: Tracks<C>, n: nat, k: nat, l: nat)
    requires Uniform(ts, n) && k < n && l < n
    ensures Frames(ts, n)[k].name == Decimal(k) && ParseDecimal(Frames(ts, n)[k].name) == k
    ensures k != l ==> Frames(ts, n)[k].name != Frames(ts, n)[l].name
  {
    DecimalRoundTrip(k);
    if k != l {
      DecimalInjective(k, l);
    }
  }

  /**
   * Satellite `i` keeps its name and colour everywhere: the initial marker
   * (at its first position), the path overlay (its whole track) and its
   * point in every frame (its position at that frame's index).
   */
  lemma SatelliteConsistent<C>(ts: Tracks<C>, n: nat, i: nat)
    requires Uniform(ts, n) && i < |ts.keys|
    ensures var name, col, t := ts.keys[i], ColorFor(i), ts.entries[ts.keys[i]];
            && InitialMarkers(ts, n)[i] == Trace(name, Markers(InitialMarkerSize), col, [t.xs[0]], [t.ys[0]], [t.zs[0]])
            && PathOverlays(ts, n)[i] == Trace(name + PathSuffix, Lines(PathWidth, PathOpacity), col, t.xs, t.ys, t.zs)
            && forall k :: 0 <= k < n ==>
                 Frames(ts, n)[k].data[i] == Trace(name, Markers(FrameMarkerSize), col, [t.xs[k]], [t.ys[k]], [t.zs[k]])
  {
  }

  /** The figure's data: the `m` initial markers, then the `m` path overlays, then the Earth. */
  lemma FigureLayout<C>(ts: Tracks<C>, n: nat)
    requires Uniform(ts, n)
    ensures var fig, m := Assemble(ts, n), |ts.keys|;
            && |fig.data| == 2 * m + 1
            && (forall i :: 0 <= i < m ==> fig.data[i] == Scatter(InitialMarkers(ts, n)[i]))
            && (forall i :: 0 <= i < m ==> fig.data[m + i] == Scatter(PathOverlays(ts, n)[i]))
            && fig.data[2 * m] == Earth(Surface(EarthRadiusKm, EarthColorscale, EarthOpacity))
            && fig.frames == Frames(ts, n)
  {
    ScattersLayout(InitialMarkers(ts, n), PathOverlays(ts, n), Earth(Surface(EarthRadiusKm, EarthColorscale, EarthOpacity)));
  }

  /** Where each trace of `ms` and of `ps` lands in `Scatters(ms) + Scatters(ps) + [last]`. */
  lemma ScattersLayout<C>(ms: seq<Trace<C>>, ps: seq<Trace<C>>, last: Item<C>)
    ensures var data := Scatters(ms) + Scatters(ps) + [last];
            && |data| == |ms| + |ps| + 1
            && (forall i :: 0 <= i < |ms| ==> data[i] == Scatter(ms[i]))
            && (forall i :: 0 <= i < |ps| ==> data[|ms| + i] == Scatter(ps[i]))
            && data[|ms| + |ps|] == last
  {
    var a, b := Scatters(ms), Scatters(ps);
    var data := a + b + [last];
    forall i | 0 <= i < |ms|
      ensures data[i] == Scatter(ms[i])
    {
      assert data[i] == a[i];
    }
    forall i | 0 <= i < |ps|
      ensures data[|ms| + i] == Scatter(ps[i])
    {
      assert data[|ms| + i] == b[i];
    }
  }
}

=== FILE: timegrid.dfy ===
/**
 * The time grid generator: instants from `end - window` up to `end`,
 * `step` apart. Instants and durations count microseconds, the resolution
 * of Python's `datetime` and `timedelta`, whose arithmetic is exact at
 * that resolution.
 */
module TimeGrid {

  /** Microseconds since an arbitrary UTC epoch. */
  type Instant = int

  /** A signed number of microseconds. */
  type Duration = int

  const Second: Duration := 1000000
  const Hour: Duration := 3600 * Second
  const Day: Duration := 24 * Hour

  /** `timedelta(days=30)`: the trailing window the script covers. */
  const Window: Duration := 30 * Day

  /** `timedelta(hours=3)`: the sampling step. */
  const Step: Duration := 3 * Hour

  /** How many samples fit: none for a negative window, else one more than the whole steps in it. */
  function SampleCount(window: Duration, step: Duration): (c: nat)
    requires step > 0
    ensures window < 0 ==> c == 0
    ensures window >= 0 ==> c > 0 && (c - 1) * step <= window < c * step
  {
    if window < 0 then 0
    else
      var q := window / step;
      assert window == q * step + window % step;
      assert (q + 1) * step == q * step + step;
      q + 1
  }

  /** The grid in closed form: sample `k` is `end - window + k * step`. */
  function Grid(end: Instant, window: Duration, step: Duration): seq<Instant>
    requires step > 0
  {
    seq(SampleCount(window, step), k => end - window + k * step)
  }

  /** Multiplying by a positive factor keeps order. */
  lemma {:induction false} MulMonotone(x: int, y: int, b: int)
    requires x <= y && b > 0
    ensures x * b <= y * b
    decreases y - x
  {
    if x < y {
      MulMonotone(x, y - 1, b);
      assert (y - 1) * b + b == y * b;
    }
  }

  /** `q` is `a / b` when `a` lies in `[q * b, (q + 1) * b)`. */
  lemma DivBetween(a: int, b: int, q: int)
    requires b > 0 && q * b <= a < (q + 1) * b
    ensures a / b == q
  {
    var q', r := a / b, a % b;
    assert a == q' * b + r && 0 <= r < b;
    if q' > q {
      MulMonotone(q + 1, q', b);
    } else if q' < q {
      MulMonotone(q', q - 1, b);
    }
  }

  /**
   * The script's `while cur <= end` loop: start at `end - window`, record
   * `cur`, advance by `step`. It yields exactly the closed-form grid.
   */
  method SampleTimes(end: Instant, window: Duration, step: Duration) returns (times: seq<Instant>)
    requires step > 0
    ensures times == Grid(end, window, step)
  {
    var start := end - window;
    times := [];
    var cur := start;
    while cur <= end
      invariant cur == start + |times| * step
      invariant forall k :: 0 <= k < |times| ==> times[k] == start + k * step
      invariant |times| > 0 ==> cur - step <= end
      decreases end - cur
    {
      assert (|times| + 1) * step == |times| * step + step;
      times := times + [cur];
      cur := cur + step;
    }
    var n := |times|;
    if window >= 0 {
      assert n > 0;
      DivBetween(window, step, n - 1);
    }
    assert n == SampleCount(window, step);
  }

  /** The grid is empty exactly when the window is negative, and otherwise starts at `end - window`. */
  lemma GridStart(end: Instant, window: Duration, step: Duration)
    requires step > 0
    ensures |Grid(end, window, step)| > 0 <==> window >= 0
    ensures window >= 0 ==> Grid(end, window, step)[0] == end - window
  {
  }

  /** Consecutive samples are exactly `step` apart. */
  lemma GridSpacing(end: Instant, window: Duration, step: Duration, k: nat)
    requires step > 0 && k + 1 < |Grid(end, window, step)|
    ensures Grid(end, window, step)[k + 1] == Grid(end, window, step)[k] + step
  {
    assert (k + 1) * step == k * step + step;
  }

  /** Every sample is at most `end`, and one more step past the last sample would pass `end`. */
  lemma GridBounds(end: Instant, window: Duration, step: Duration)
    requires step > 0
    ensures forall k :: 0 <= k < |Grid(end, window, step)| ==> Grid(end, window, step)[k] <= end
    ensures var g := Grid(end, window, step); |g| > 0 ==> g[|g| - 1] + step > end
  {
    var g := Grid(end, window, step);
    if window >= 0 {
      var q := window / step;
      assert |g| == q + 1;
      assert q * step <= window < q * step + step;
      forall k | 0 <= k < |g|
        ensures g[k] <= end
      {
        MulMonotone(k, q, step);
      }
      assert g[q] == end - window + q * step;
    }
  }

  /** Samples strictly increase. */
  lemma GridIncreasing(end: Instant, window: Duration, step: Duration, i: nat, j: nat)
    requires step > 0 && i < j < |Grid(end, window, step)|
    ensures Grid(end, window, step)[i] < Grid(end, window, step)[j]
  {
    MulMonotone(i + 1, j, step);
    assert (i + 1) * step == i * step + step;
  }

  /** The script's own parameters: 30 days at 3 hours give 241 samples, the last one exactly `end`. */
  lemma ThirtyDaysEveryThreeHours(end: Instant)
    ensures |Grid(end, Window, Step)| == 241
    ensures Grid(end, Window, Step)[0] == end - Window
    ensures Grid(end, Window, Step)[240] == end
  {
  }

  /** One day at a 24-hour step gives exactly two samples, `end - 1 day` and `end`. */
  lemma OneDayOneStep(end: Instant)
    ensures Grid(end, Day, Day) == [end - Day, end]
  {
  }
}

=== FILE: tle.dfy ===
/**
 * The element parser: raw three-line blocks (name, element line 1, element
 * line 2) become a name-keyed, insertion-ordered catalogue of records.
 * The element lines are carried as text; their checksum and column layout
 * are not inspected.
 */
module Tle {
  import opened Results
  import opened PyStr
  import opened Dicts

  /** The name and the two element lines the satellite object is built from, each stripped. */
  datatype Record = Record(name: string, line1: string, line2: string)

  /** `lines[index]` was out of range: the block split into only `index` lines. */
  datatype BlockError = MissingLine(index: nat)

  /** Block number `block` failed; the script stops there. */
  datatype LoadError = BadBlock(block: nat, cause: BlockError)

  /** The `satellites` dict: name to record, in insertion order. */
  type Catalogue = Dict<string, Record>

  /**
   * One loop iteration's parsing step: split into lines, strip lines 0, 1
   * and 2 in that order, and fail at the first index that does not exist.
   */
  function ParseBlock(block: string): (r: Result<Record, BlockError>)
    ensures r.Ok? ==> Unpadded(r.value.name) && Unpadded(r.value.line1) && Unpadded(r.value.line2)
    ensures r.Ok? ==> NoLineBreak(r.value.name) && NoLineBreak(r.value.line1) && NoLineBreak(r.value.line2)
    ensures r.Err? ==> r.error.index < 3
  {
    var lines := SplitLines(block);
    if |lines| < 3 then Err(MissingLine(|lines|))
    else
      StripKeepsNoLineBreak(lines[0]);
      StripKeepsNoLineBreak(lines[1]);
      StripKeepsNoLineBreak(lines[2]);
      Ok(Record(Strip(lines[0]), Strip(lines[1]), Strip(lines[2])))
  }

  /** Stripping keeps a line free of line breaks. */
  lemma StripKeepsNoLineBreak(s: string)
    requires NoLineBreak(s)
    ensures NoLineBreak(Strip(s))
  {
    var r := Strip(s);
    var i := |s| - |TrimStart(s)|;
    assert PaddedAt(s, r, i);
    forall k | 0 <= k < |r|
      ensures !IsLineBreak(r[k])
    {
      assert r[k] == s[i..i + |r|][k] == s[i + k];
    }
  }

  /**
   * A block written as at least three lines joined by "\n" (the last one not
   * empty) parses to its first three lines, stripped; later lines are ignored.
   */
  lemma ParseJoined(ls: seq<string>)
    requires |ls| >= 3 && ls[|ls| - 1] != []
    requires forall k :: 0 <= k < |ls| ==> NoLineBreak(ls[k])
    ensures ParseBlock(Joined(ls)) == Ok(Record(Strip(ls[0]), Strip(ls[1]), Strip(ls[2])))
  {
    SplitJoined(ls);
  }

  /** A block of fewer than three lines fails at the first missing index. */
  lemma ParseShortBlock(ls: seq<string>)
    requires |ls| < 3 && (ls == [] || ls[|ls| - 1] != [])
    requires forall k :: 0 <= k < |ls| ==> NoLineBreak(ls[k])
    ensures ParseBlock(if ls == [] then [] else Joined(ls)) == Err(MissingLine(|ls|))
  {
    if ls != [] {
      SplitJoined(ls);
    }
  }

  /**
   * Parse every block in order. On success record `i` comes from block `i`;
   * on failure the error names the first block that does not parse.
   */
  function ParseAll(blocks: seq<string>): (r: Result<seq<Record>, LoadError>)
    ensures r.Ok? ==> |r.value| == |blocks|
    ensures r.Ok? ==> forall i :: 0 <= i < |blocks| ==> ParseBlock(blocks[i]) == Ok(r.value[i])
    ensures r.Err? ==> r.error.block < |blocks| && ParseBlock(blocks[r.error.block]) == Err(r.error.cause)
    ensures r.Err? ==> forall j :: 0 <= j < r.error.block ==> ParseBlock(blocks[j]).Ok?
  {
    var parsed := seq(|blocks|, i requires 0 <= i < |blocks| => ParseBlock(blocks[i]));
    assert forall i :: 0 <= i < |blocks| ==> parsed[i] == ParseBlock(blocks[i]);
    match Collect(parsed)
    case Ok(rs) => Ok(rs)
    case Err(Located(i, e)) => Err(BadBlock(i, e))
  }

  /** The names of `rs`, in order. */
  function Names(rs: seq<Record>): seq<string> {
    seq(|rs|, i requires 0 <= i < |rs| => rs[i].name)
  }

  /** Position of the first occurrence of `n` in `ns`. */
  function FirstIndex(ns: seq<string>, n: string): (i: nat)
    requires n in ns
    ensures i < |ns| && ns[i] == n
    ensures forall j :: 0 <= j < i ==> ns[j] != n
  {
    if ns[0] == n then 0 else 1 + FirstIndex(ns[1..], n)
  }

  /** Position of the last occurrence of `n` in `ns`. */
  function LastIndex(ns: seq<string>, n: string): (i: nat)
    requires n in ns
    ensures i < |ns| && ns[i] == n
    ensures forall j :: i < j < |ns| ==> ns[j] != n
  {
    if ns[|ns| - 1] == n then |ns| - 1 else LastIndex(ns[..|ns| - 1], n)
  }

  /**
   * The loop's `satellites[name] = ...` over the records in order: one key
   * per distinct name.
   */
  function FromRecords(rs: seq<Record>): (cat: Catalogue)
    ensures cat.Valid()
    ensures forall n :: n in cat.entries <==> n in Names(rs)
  {
    if rs == [] then Empty()
    else
      var front := rs[..|rs| - 1];
      var last := rs[|rs| - 1];
      assert Names(rs) == Names(front) + [last.name];
      Put(FromRecords(front), last.name, last)
  }

  /** The whole parsing loop: the catalogue, or the first block that fails. */
  function Load(blocks: seq<string>): (r: Result<Catalogue, LoadError>)
    ensures r.Ok? <==> forall i :: 0 <= i < |blocks| ==> ParseBlock(blocks[i]).Ok?
    ensures r.Ok? ==> r.value.Valid() && |r.value.keys| <= |blocks|
  {
    var rs :- ParseAll(blocks);
    CatalogueSize(rs);
    Ok(FromRecords(rs))
  }

  /** A catalogue never has more entries than records went into it. */
  lemma {:induction false} CatalogueSize(rs: seq<Record>)
    ensures |FromRecords(rs).keys| <= |rs|
  {
    if rs != [] {
      CatalogueSize(rs[..|rs| - 1]);
    }
  }

  lemma FirstIndexAppend(ns: seq<string>, x: string, n: string)
    requires n in ns
    ensures FirstIndex(ns + [x], n) == FirstIndex(ns, n)
  {
    var a, b := FirstIndex(ns + [x], n), FirstIndex(ns, n);
    assert (ns + [x])[b] == n;
  }

  lemma LastIndexAppend(ns: seq<string>, x: string, n: string)
    requires n in ns && n != x
    ensures LastIndex(ns + [x], n) == LastIndex(ns, n)
  {
    var a, b := LastIndex(ns + [x], n), LastIndex(ns, n);
    assert (ns + [x])[b] == n;
    assert a < |ns|;
  }

  /** Every key occurs in `ns`, and the keys are ordered by where they first occur there. */
  predicate InFirstOccurrenceOrder(keys: seq<string>, ns: seq<string>) {
    && (forall i :: 0 <= i < |keys| ==> keys[i] in ns)
    && (forall i, j :: 0 <= i < j < |keys| && keys[i] in ns && keys[j] in ns ==>
          FirstIndex(ns, keys[i]) < FirstIndex(ns, keys[j]))
  }

  /** Appending a name keeps the order when it leaves the keys alone or adds a name not seen before. */
  lemma FirstOccurrenceStep(keys': seq<string>, ns': seq<string>, x: string, keys: seq<string>)
    requires InFirstOccurrenceOrder(keys', ns')
    requires keys == keys' || (x !in ns' && keys == keys' + [x])
    ensures InFirstOccurrenceOrder(keys, ns' + [x])
  {
    var ns := ns' + [x];
    forall i | 0 <= i < |keys|
      ensures keys[i] in ns
    {
      if i < |keys'| {
        assert keys[i] == keys'[i];
      }
    }
    forall i, j | 0 <= i < j < |keys|
      ensures FirstIndex(ns, keys[i]) < FirstIndex(ns, keys[j])
    {
      var a, b := keys[i], keys[j];
      assert a == keys'[i] && a in ns';
      FirstIndexAppend(ns', x, a);
      if j < |keys'| {
        assert b == keys'[j] && b in ns';
        FirstIndexAppend(ns', x, b);
      } else {
        assert b == x;
        assert ns[|ns'|] == x;
      }
    }
  }

  /** Keys appear in the order in which their names first occur in the input. */
  lemma {:induction false} CatalogueFirstOccurrenceOrder(rs: seq<Record>)
    ensures InFirstOccurrenceOrder(FromRecords(rs).keys, Names(rs))
  {
    if rs != [] {
      var front := rs[..|rs| - 1];
      var last := rs[|rs| - 1];
      var ns' := Names(front);
      assert Names(rs) == ns' + [last.name];
      var cat' := FromRecords(front);
      assert FromRecords(rs) == Put(cat', last.name, last);
      CatalogueFirstOccurrenceOrder(front);
      FirstOccurrenceStep(cat'.keys, ns', last.name, FromRecords(rs).keys);
    }
  }

  /**
   * Each key holds the record of its name's last occurrence: a later
   * duplicate overwrites the earlier value.
   */
  lemma {:induction false} CatalogueLastWins(rs: seq<Record>)
    ensures var cat := FromRecords(rs);
            forall n :: n in cat.entries ==> cat.entries[n] == rs[LastIndex(Names(rs), n)]
  {
    if rs != [] {
      var front := rs[..|rs| - 1];
      var last := rs[|rs| - 1];
      var ns, ns' := Names(rs), Names(front);
      assert ns == ns' + [last.name];
      var cat' := FromRecords(front);
      var cat := Put(cat', last.name, last);
      assert cat == FromRecords(rs);
      CatalogueLastWins(front);
      forall n | n in cat.entries
        ensures cat.entries[n] == rs[LastIndex(ns, n)]
      {
        if n == last.name {
          assert LastIndex(ns, n) == |rs| - 1;
        } else {
          LastIndexAppend(ns', last.name, n);
          assert cat.entries[n] == cat'.entries[n];
          assert front[LastIndex(ns', n)] == rs[LastIndex(ns', n)];
        }
      }
    }
  }

  /**
   * With pairwise distinct names the catalogue lists the names in input
   * order and maps each to its own block's record.
   */
  lemma {:induction false} DistinctNamesKeepOrder(rs: seq<Record>)
    requires Distinct(Names(rs))
    ensures FromRecords(rs).keys == Names(rs)
    ensures forall i :: 0 <= i < |rs| ==>
              rs[i].name in FromRecords(rs).entries && FromRecords(rs).entries[rs[i].name] == rs[i]
  {
    if rs != [] {
      var front := rs[..|rs| - 1];
      var last := rs[|rs| - 1];
      var ns, ns' := Names(rs), Names(front);
      assert ns == ns' + [last.name];
      assert Distinct(ns') by {
        forall i, j | 0 <= i < j < |front|
          ensures ns'[i] != ns'[j]
        {
          assert ns'[i] == ns[i] && ns'[j] == ns[j];
        }
      }
      DistinctNamesKeepOrder(front);
      var cat' := FromRecords(front);
      assert last.name !in cat'.entries by {
        forall i | 0 <= i < |front|
          ensures ns'[i] != last.name
        {
          assert ns[i] != ns[|rs| - 1];
        }
      }
      var cat := Put(cat', last.name, last);
      assert cat == FromRecords(rs);
      forall i | 0 <= i < |rs|
        ensures rs[i].name in cat.entries && cat.entries[rs[i].name] == rs[i]
      {
        if i < |rs| - 1 {
          assert rs[i] == front[i];
          assert ns[i] != ns[|rs| - 1];
        }
      }
    }
  }

  /**
   * What a successful load holds, block by block: the records parsed from
   * the blocks in order, keyed in order of each name's first block, each
   * name holding the record of its last block.
   */
  lemma LoadContents(blocks: seq<string>)
    requires forall i :: 0 <= i < |blocks| ==> ParseBlock(blocks[i]).Ok?
    ensures Load(blocks).Ok? && ParseAll(blocks).Ok?
    ensures var cat, rs := Load(blocks).value, ParseAll(blocks).value;
            && |rs| == |blocks|
            && (forall i :: 0 <= i < |blocks| ==> ParseBlock(blocks[i]) == Ok(rs[i]))
            && (forall n :: n in cat.entries <==> n in Names(rs))
            && InFirstOccurrenceOrder(cat.keys, Names(rs))
            && (forall n :: n in cat.entries ==> cat.entries[n] == rs[LastIndex(Names(rs), n)])
  {
    var rs := ParseAll(blocks).value;
    assert Load(blocks).value == FromRecords(rs);
    CatalogueFirstOccurrenceOrder(rs);
    CatalogueLastWins(rs);
  }
}

=== FILE: trajectory.dfy ===
/**
 * The trajectory builder: every catalogued satellite, in catalogue order,
 * is propagated over the whole time grid, and its positions are split into
 * one sequence per coordinate. Propagation itself is a parameter.
 */
module Trajectory {
  import opened Results
  import opened Dicts
  import opened Tle
  import opened TimeGrid

  /** An Earth-centred position in kilometres; the coordinate values are left opaque. */
  datatype Vec3<C> = Vec3(x: C, y: C, z: C)

  /** One satellite's positions split by coordinate: the `(xs, ys, zs)` triple. */
  datatype Track<C> = Track(xs: seq<C>, ys: seq<C>, zs: seq<C>) {

    predicate HasLength(n: nat) {
      |xs| == n && |ys| == n && |zs| == n
    }

    /** The position at time index `k`. */
    function At(k: nat): Vec3<C>
      requires k < |xs| && k < |ys| && k < |zs|
    {
      Vec3(xs[k], ys[k], zs[k])
    }
  }

  /** Position `k` of a track of length `n`, for every `k`: the track read back as positions. */
  function Points<C>(t: Track<C>, n: nat): (pos: seq<Vec3<C>>)
    requires t.HasLength(n)
  {
    seq(n, k requires 0 <= k < n => t.At(k))
  }

  /** `xs, ys, zs = zip(*pos)` on an empty list: three names, nothing to unpack. */
  datatype UnpackError = NotEnoughValues(expected: nat, got: nat)

  /** `zip(*pos)` followed by unpacking into three names. */
  function Unzip<C>(pos: seq<Vec3<C>>): (r: Result<Track<C>, UnpackError>)
    ensures r.Ok? <==> |pos| > 0
    ensures r.Ok? ==> r.value.HasLength(|pos|)
    ensures r.Ok? ==> forall k :: 0 <= k < |pos| ==> r.value.At(k) == pos[k]
    ensures r.Err? ==> r.error == NotEnoughValues(3, 0)
  {
    if |pos| == 0 then Err(NotEnoughValues(3, 0))
    else Ok(Track(seq(|pos|, k requires 0 <= k < |pos| => pos[k].x),
                  seq(|pos|, k requires 0 <= k < |pos| => pos[k].y),
                  seq(|pos|, k requires 0 <= k < |pos| => pos[k].z)))
  }

  /** Reading an unzipped track back position by position gives the positions that went in. */
  lemma UnzipThenPoints<C>(pos: seq<Vec3<C>>)
    requires |pos| > 0
    ensures Unzip(pos).Ok? && Points(Unzip(pos).value, |pos|) == pos
  {
  }

  /** Unzipping the positions of a non-empty track gives the track back. */
  lemma PointsThenUnzip<C>(t: Track<C>, n: nat)
    requires n > 0 && t.HasLength(n)
    ensures Unzip(Points(t, n)) == Ok(t)
  {
    var u := Unzip(Points(t, n)).value;
    assert u.xs == t.xs && u.ys == t.ys && u.zs == t.zs;
  }

  /**
   * One satellite over the grid: `pos = [sat.at(t).position.km for t in times]`
   * unpacked by `xs, ys, zs = zip(*pos)`. It yields the satellite's track,
   * or the unpack error when the grid is empty.
   */
  function Propagated<C>(rec: Record, times: seq<Instant>, propagate: (Record, Instant) -> Vec3<C>): (r: Result<Track<C>, UnpackError>)
    ensures r.Ok? <==> |times| > 0
    ensures r.Ok? ==> Follows(r.value, rec, times, propagate)
    ensures r.Err? ==> r.error == NotEnoughValues(3, 0)
  {
    Unzip(seq(|times|, k requires 0 <= k < |times| => propagate(rec, times[k])))
  }

  /** The unpacking failed for satellite `name`; the script stops there. */
  datatype TrackError = EmptyTrack(name: string, cause: UnpackError)

  /** The `positions` dict: name to track. */
  type Tracks<C> = Dict<string, Track<C>>

  /** `track` holds `rec` propagated at every instant of `times`, index for index. */
  ghost predicate Follows<C>(track: Track<C>, rec: Record, times: seq<Instant>, propagate: (Record, Instant) -> Vec3<C>) {
    track.HasLength(|times|) && forall k :: 0 <= k < |times| ==> track.At(k) == propagate(rec, times[k])
  }

  /**
   * The loop over `satellites.items()`, for the satellites named in `names`:
   * each gets its propagated track under its own name, in the same order.
   * With an empty grid the first satellite's unpacking fails.
   */
  function BuildFrom<C>(cat: Catalogue, names: seq<string>, times: seq<Instant>,
                        propagate: (Record, Instant) -> Vec3<C>): (r: Result<Tracks<C>, TrackError>)
    requires forall i :: 0 <= i < |names| ==> names[i] in cat.entries
    requires Distinct(names)
    ensures r.Ok? <==> names == [] || |times| > 0
    ensures r.Err? ==> r.error == EmptyTrack(names[0], NotEnoughValues(3, 0))
    ensures r.Ok? ==> r.value.Valid() && r.value.keys == names
    ensures r.Ok? && |times| > 0 ==> forall i :: 0 <= i < |names| ==>
              r.value.entries[names[i]] == Propagated(cat.entries[names[i]], times, propagate).value
  {
    if names == [] then Ok(Empty())
    else
      var front := names[..|names| - 1];
      var name := names[|names| - 1];
      DistinctSplit(names);
      var done := BuildFrom(cat, front, times, propagate);
      if done.Err? then Err(done.error)
      else
        var unzipped := Propagated(cat.entries[name], times, propagate);
        if unzipped.Err? then Err(EmptyTrack(name, unzipped.error))
        else
          AppendTrack(cat, front, name, times, propagate, done.value, unzipped.value);
          Ok(Put(done.value, name, unzipped.value))
  }

  /** Adding the next satellite's track to the tracks built so far. */
  lemma AppendTrack<C>(cat: Catalogue, front: seq<string>, name: string, times: seq<Instant>,
                       propagate: (Record, Instant) -> Vec3<C>, done: Tracks<C>, t: Track<C>)
    requires |times| > 0 && name in cat.entries && name !in front
    requires forall i :: 0 <= i < |front| ==> front[i] in cat.entries
    requires done.Valid() && done.keys == front
    requires forall i :: 0 <= i < |front| ==>
               done.entries[front[i]] == Propagated(cat.entries[front[i]], times, propagate).value
    requires t == Propagated(cat.entries[name], times, propagate).value
    ensures Put(done, name, t).Valid() && Put(done, name, t).keys == front + [name]
    ensures forall i :: 0 <= i < |front + [name]| ==>
              Put(done, name, t).entries[(front + [name])[i]]
                == Propagated(cat.entries[(front + [name])[i]], times, propagate).value
  {
    var names := front + [name];
    assert name !in done.entries;
    PutNewKey(done, name, t);
    forall i | 0 <= i < |names|
      ensures Put(done, name, t).entries[names[i]] == Propagated(cat.entries[names[i]], times, propagate).value
    {
      if i < |front| {
        assert names[i] == front[i];
      }
    }
  }

  /** `positions`: one track per catalogued satellite, in catalogue order. */
  function BuildTracks<C>(cat: Catalogue, times: seq<Instant>, propagate: (Record, Instant) -> Vec3<C>): (r: Result<Tracks<C>, TrackError>)
    requires cat.Valid()
    ensures r.Ok? <==> cat.keys == [] || |times| > 0
    ensures r.Ok? ==> r.value.Valid() && r.value.keys == cat.keys
    ensures r.Ok? ==> forall i :: 0 <= i < |cat.keys| ==>
              Follows(r.value.entries[cat.keys[i]], cat.entries[cat.keys[i]], times, propagate)
  {
    var r := BuildFrom(cat, cat.keys, times, propagate);
    assert r.Ok? ==> forall i :: 0 <= i < |cat.keys| ==>
      r.value.entries[cat.keys[i]] == Propagated(cat.entries[cat.keys[i]], times, propagate).value;
    r
  }
}
